=== FILE: README.md ===
# Rocket.Chat client glue: auto-translate, SMS registry, departments table, highlight words

A Dafny model of four small, deterministic pieces of the Rocket.Chat web app:

- **Auto-translate** (`apps/meteor/app/autotranslate/client/lib/autotranslate.ts`). This covers:
  - the memoised subscription lookup `findSubscriptionByRid` and the rule that clears it;
  - `init`;
  - the language resolver `getLanguage`;
  - the recursive attachment rewrite `translateAttachments`;
  - the message renderer returned by `createAutoTranslateMessageRenderer`;
  - the stream handler returned by `createAutoTranslateMessageStreamHandler`.

  The `AutoTranslate` singleton is an explicit `AutoTranslateState` value that each operation takes and returns. Messages and attachments are immutable datatypes, and a rewrite returns the new value. The stream handler returns the `Messages.update` modifier as an `Update` value rather than writing it.
- **SMS worker** (`apps/meteor/app/sms/server/SMS.ts`). This covers:
  - the provider registry `registerService` / `getService` with its two ordered errors;
  - `isConfiguredService`;
  - the three settings watchers.
- **Departments table** (`apps/meteor/client/views/omnichannel/departments/DepartmentsRoute.tsx`). This covers `sortDir`, the header-click sort toggle, the query record built by `useQuery`, and the initial state.
- **Highlight words** (`apps/meteor/client/startup/renderMessage/highlightWords.ts`). This covers `isEnabled`, `wordsToHighlight`, and the remove-then-add registration of the `'highlight-words'` renderer in a callbacks registry.

Modules: `Values` (optional values, results, JavaScript truthiness) and `Chat` (the records), then `SubscriptionCache`, `LanguageResolver`, `AttachmentDecorator`, `MessageDecorator`, `StreamHandler`, `Sms`, `Departments` and `HighlightWords`. `Scenarios` holds a small conversation (`other` writes `Hola`, `me` reads English) and the concrete renderer and stream-handler lemmas about it, apart from the model modules.

The viewer is an `Option<User>` parameter. `UserId` plays `Meteor.userId()` and `Username` plays `user?.username || ''`.

The local subscription collection is a `seq<Subscription>` searched by `FindOne`. `SubscriptionCache.Coherent` says the memo agrees with that collection on the two translation fields. The cache lemmas show:

- lookups and the change observer keep the memo coherent;
- a change to a watched field forces the next lookup to read the collection.

The observer only handles `changed` events, so a memo miss (`None`) cached before a subscription was added stays cached.

Behaviour worth knowing:

- **Second render.** Rendering a message a second time keeps its `html` (`MessageDecorator.HtmlStableOnSecondRender`). But it overwrites `translations.original` with the translated text (`Scenarios.SecondRenderOverwritesOriginal`). So the translations are not stable under a second pass.
- **XOR case.** With auto-translate off and `autoTranslateShowInverse` on, the two flags differ. The message is therefore rewritten (`Scenarios.InverseOfPlainRoomShowsTranslation`). The flags cancel out only when both are on (`Scenarios.InverseOfTranslatedRoomKeepsHtml`).
- **Language fallback.** The process-wide `window.defaultUserLanguage` fallback is never reached, because the user's language already falls back to `'en'`.
- **Rule 2 of the stream handler.** It needs a subscription to exist, not only that auto-translate is off.

## Model

| member | source | states |
|---|---|---|
| SubscriptionCache.FindOne | apps/meteor/app/autotranslate/client/lib/autotranslate.ts:40 | `Subscriptions.findOne({ rid })` finds a subscription exactly when one of that room exists, and it is the first such one in the store |
| SubscriptionCache.FindSubscriptionByRid | apps/meteor/app/autotranslate/client/lib/autotranslate.ts:40 | the memo answers a cached room from the cache even if the store changed; a miss reads the store and caches the answer (also a `None`); no other entry changes |
| SubscriptionCache.LookupKeepsCoherence | apps/meteor/app/autotranslate/client/lib/autotranslate.ts:40 | a lookup on a coherent memo keeps it coherent and returns the store's translation settings |
| SubscriptionCache.LookupIsStable | apps/meteor/app/autotranslate/client/lib/autotranslate.ts:40 | a second lookup of a room returns the first answer whatever the store holds by then |
| SubscriptionCache.OnSubscriptionChanged | apps/meteor/app/autotranslate/client/lib/autotranslate.ts:120-126 | the observer clears the whole memo when the change carries `autoTranslate` or `autoTranslateLanguage`; any other change, or any change before `init`, leaves the state as it was |
| SubscriptionCache.ChangeKeepsCoherence | apps/meteor/app/autotranslate/client/lib/autotranslate.ts:120-126 | after `init`, a coherent memo stays coherent with the changed store, whichever of the modelled fields (not `rid`) the change carries |
| SubscriptionCache.NoStaleReadAfterTranslationChange | apps/meteor/app/autotranslate/client/lib/autotranslate.ts:122-123 | after a change to a watched field, the next lookup of any room returns what the changed store holds |
| SubscriptionCache.Init | apps/meteor/app/autotranslate/client/lib/autotranslate.ts:96-128 | `init` leaves the object initialized; a second call changes nothing; it touches neither the memo, the waiting ids nor the supported languages |
| SubscriptionCache.InitIdempotent | apps/meteor/app/autotranslate/client/lib/autotranslate.ts:97-99 | calling `init` twice is the same as calling it once |
| LanguageResolver.PreferredLanguage | apps/meteor/app/autotranslate/client/lib/autotranslate.ts:47 | the subscription's language if truthy, else the user's language if truthy, else `en`; never empty |
| LanguageResolver.SubscriptionLanguageWins | apps/meteor/app/autotranslate/client/lib/autotranslate.ts:47 | when the subscription has a language, the user's preference makes no difference |
| LanguageResolver.NoPreferenceMeansEnglish | apps/meteor/app/autotranslate/client/lib/autotranslate.ts:22-26 | with no subscription language and no signed-in user the resolved language is `en` |
| LanguageResolver.NormalizeTag | apps/meteor/app/autotranslate/client/lib/autotranslate.ts:48-53 | a tag containing `-` that is not exactly a supported language becomes its first two characters; any other tag is returned unchanged; the result is a non-empty prefix of a non-empty tag |
| LanguageResolver.UnloadedLanguagesAlwaysTruncate | apps/meteor/app/autotranslate/client/lib/autotranslate.ts:49-50 | with the supported list absent or empty every region tag is cut to two characters |
| LanguageResolver.SupportedTagKept | apps/meteor/app/autotranslate/client/lib/autotranslate.ts:49 | a region tag that is in the supported list is kept whole |
| LanguageResolver.NormalizeIdempotent | apps/meteor/app/autotranslate/client/lib/autotranslate.ts:48-53 | normalizing a normalized tag changes nothing |
| LanguageResolver.GetLanguage | apps/meteor/app/autotranslate/client/lib/autotranslate.ts:42-54 | the resolved language is never empty; an empty room id skips the lookup, leaves the state untouched and resolves from the user alone; otherwise the language is the normalized preference of the subscription the memo answers (which can be stale), and the state changes as that one memoised lookup |
| AttachmentDecorator.TranslateField | apps/meteor/app/autotranslate/client/lib/autotranslate.ts:66-84 | when the field is truthy and a translation exists, the old field goes under `original` and the field shows the entry for the language in the updated map (the translation, or the field itself for the key `original`), or stays the original when `showInverse`; otherwise nothing changes |
| AttachmentDecorator.TranslateOne | apps/meteor/app/autotranslate/client/lib/autotranslate.ts:65-91 | the viewer's attachment is returned unchanged. For others: `text` becomes the translation unless `showInverse`; `description` follows the same rule; `original` holds the old description when both fields are translated and the old text when only the text is; nothing is translated without a translation; the author and nesting structure never change |
| AttachmentDecorator.TranslateAttachments | apps/meteor/app/autotranslate/client/lib/autotranslate.ts:56-94 | a list failing the shape guard is returned as is; otherwise element i is the rewrite of the i-th attachment (so length and order are preserved), and without `showInverse` someone else's attachment with a translation shows it as its text; authors and nesting are preserved; every attachment of the viewer is untouched; with `showInverse` no top-level text or description changes |
| AttachmentDecorator.NestedIgnoresShowInverse | apps/meteor/app/autotranslate/client/lib/autotranslate.ts:87-90 | nested attachments come out the same whether the parent is rendered with `showInverse` or not |
| AttachmentDecorator.NestedAlwaysTranslated | apps/meteor/app/autotranslate/client/lib/autotranslate.ts:87-90 | a nested attachment of someone else with a translation always shows the translated text, whatever `showInverse` the top level got |
| MessageDecorator.Decorate | apps/meteor/app/autotranslate/client/lib/autotranslate.ts:138-160 | a message without a sender or from the viewer is returned unchanged. For others: `translations` always exists afterwards and gains no key other than `original`; without the XOR only that changes; with it, `original` holds the old html, `html` becomes the translation exactly when one exists and no attachment carries the language, and the attachments are rewritten with the message's inverse flag. Identity, sender, text, flags and the attachment structure never change |
| MessageDecorator.Render | apps/meteor/app/autotranslate/client/lib/autotranslate.ts:132-161 | the renderer leaves messages of the viewer alone; its state afterwards is exactly that of one memoised lookup of the room, so it adds the room to the memo and drops nothing else |
| MessageDecorator.RenderKeepsCoherence | apps/meteor/app/autotranslate/client/lib/autotranslate.ts:136-137 | the renderer's two lookups keep a coherent memo coherent |
| MessageDecorator.RenderUsesOneSubscription | apps/meteor/app/autotranslate/client/lib/autotranslate.ts:136-137 | the language comes from the same subscription that decides the XOR, because the second lookup hits the memo |
| MessageDecorator.HtmlStableOnSecondRender | apps/meteor/app/autotranslate/client/lib/autotranslate.ts:142-149 | decorating a decorated message again gives the same html |
| Scenarios.SecondRenderOverwritesOriginal | apps/meteor/app/autotranslate/client/lib/autotranslate.ts:143 | for the `Hola`/`Hello` message, a second pass stores `Hello` under `original`, where the first stored `Hola` |
| Scenarios.HolaBecomesHello | apps/meteor/app/autotranslate/client/lib/autotranslate.ts:142-149 | auto-translate on, inverse off: `Hola` is shown as `Hello` and `Hola` is kept under `original` |
| Scenarios.InverseOfTranslatedRoomKeepsHtml | apps/meteor/app/autotranslate/client/lib/autotranslate.ts:142 | auto-translate on, inverse on: the html stays `Hola` |
| Scenarios.InverseOfPlainRoomShowsTranslation | apps/meteor/app/autotranslate/client/lib/autotranslate.ts:142-149 | auto-translate off, inverse on: the html becomes `Hello` |
| StreamHandler.Decide | apps/meteor/app/autotranslate/client/lib/autotranslate.ts:168-185 | messages of the viewer get no update. Otherwise the first matching rule wins: request (set fetching); else finish waiting (set show-inverse, unset fetching, drop the id); else clear fetching; else nothing. No update sets and unsets one flag. Only rule 2 changes the waiting ids, and only by removing this message's id |
| StreamHandler.ApplyUpdate | apps/meteor/app/autotranslate/client/lib/autotranslate.ts:179-184 | a `$set` flag becomes `true`, an `$unset` flag disappears, every other field is kept |
| StreamHandler.HandleStreamed | apps/meteor/app/autotranslate/client/lib/autotranslate.ts:164-187 | messages of the viewer cause no update and no state change; for others the memo is that of one lookup of the room, and for a non-empty room id the update and the waiting ids are exactly what the three rules decide for the memo's subscription and the language resolved from it |
| StreamHandler.ShowOriginalSettles | apps/meteor/app/autotranslate/client/lib/autotranslate.ts:180-182 | once the show-original update is written, streaming the message again issues nothing |
| StreamHandler.StopFetchingSettles | apps/meteor/app/autotranslate/client/lib/autotranslate.ts:183-185 | once fetching is cleared, streaming the message again issues nothing |
| StreamHandler.RequestWinsOverWaiting | apps/meteor/app/autotranslate/client/lib/autotranslate.ts:171-182 | when a translation is needed the request is issued even for an awaited id, which stays awaited |
| Scenarios.UntranslatedMessageIsFetched | apps/meteor/app/autotranslate/client/lib/autotranslate.ts:171-179 | a message with text and no translations in a translating room is marked as fetching |
| Sms.RegisterService | apps/meteor/app/sms/server/SMS.ts:15-17 | the provider is stored under the name exactly as given, replacing only an earlier entry of that name |
| Sms.GetService | apps/meteor/app/sms/server/SMS.ts:19-27 | disabled is reported first, whatever the registry; then an unknown lowercased name is not configured; otherwise the provider under the lowercased name is built with the account sid, token and from number |
| Sms.GetServiceIgnoresCase | apps/meteor/app/sms/server/SMS.ts:23-26 | names that lowercase alike get the same answer |
| Sms.UppercaseRegistrationInvisible | apps/meteor/app/sms/server/SMS.ts:15-26 | registering under a name containing an uppercase letter changes no lookup |
| Sms.LowercaseRegistrationFound | apps/meteor/app/sms/server/SMS.ts:15-26 | a provider registered under a lowercase name is found by every spelling of it when enabled |
| Sms.IsConfiguredService | apps/meteor/app/sms/server/SMS.ts:29-32 | true exactly when the stored service equals the lowercased name |
| Sms.ConfiguredServiceIgnoresCase | apps/meteor/app/sms/server/SMS.ts:29-45 | after the `SMS_Service` watcher, `isConfiguredService` ignores case on both sides |
| Sms.OnSmsEnabled | apps/meteor/app/sms/server/SMS.ts:35-37 | the watcher sets `enabled` and no other field |
| Sms.OnDefaultDepartment | apps/meteor/app/sms/server/SMS.ts:39-41 | the watcher sets `department` and no other field |
| Sms.OnSmsService | apps/meteor/app/sms/server/SMS.ts:43-45 | the watcher stores the lowercased value (so a name without uppercase letters) and sets no other field |
| Sms.WatchersAreIndependent | apps/meteor/app/sms/server/SMS.ts:35-45 | the enabled and department watchers do not change `isConfiguredService`; the department and service watchers do not change `getService` |
| Sms.InitiallyDisabled | apps/meteor/app/sms/server/SMS.ts:6-22 | before any setting arrives every lookup fails with `error-sms-service-disabled` |
| Departments.SortDir | apps/meteor/client/views/omnichannel/departments/DepartmentsRoute.tsx:17 | `1` exactly for `asc`, `-1` for every other string |
| Departments.SortSpec | apps/meteor/client/views/omnichannel/departments/DepartmentsRoute.tsx:28-31 | the column maps to its direction; `usernames` is present (same direction) exactly when sorting by name |
| Departments.UsernamesColumnSortsNothing | apps/meteor/client/views/omnichannel/departments/DepartmentsRoute.tsx:28-31 | a column literally named `usernames` is overwritten by the `undefined` member and the sort is empty |
| Departments.BuildQuery | apps/meteor/client/views/omnichannel/departments/DepartmentsRoute.tsx:19-37 | text defaults to empty; `count` exactly when `itemsPerPage` is truthy and `offset` exactly when `current` is truthy, each carrying that value; the sort; the flag as `String(flag)`: `'true'`, `'false'`, or `'undefined'` when absent |
| Departments.FirstPageHasNoOffset | apps/meteor/client/views/omnichannel/departments/DepartmentsRoute.tsx:33 | `current = 0` omits `offset` |
| Departments.OnHeaderClick | apps/meteor/client/views/omnichannel/departments/DepartmentsRoute.tsx:59-67 | the clicked column becomes the sorted one; the active column flips direction; a new column starts ascending |
| Departments.DoubleClickRestores | apps/meteor/client/views/omnichannel/departments/DepartmentsRoute.tsx:62-64 | two clicks on the active column restore the sort |
| Departments.NewColumnTwiceIsDescending | apps/meteor/client/views/omnichannel/departments/DepartmentsRoute.tsx:59-67 | two clicks on a new column sort it descending |
| Departments.InitialQuery | apps/meteor/client/views/omnichannel/departments/DepartmentsRoute.tsx:44-54 | the first query sorts by name and usernames ascending, with 25 per page, no offset, empty text and own departments only |
| HighlightWords.TrimEmptyIffBlank | apps/meteor/client/startup/renderMessage/highlightWords.ts:10 | `trim()` is empty exactly when every character is whitespace |
| HighlightWords.IsEnabled | apps/meteor/client/startup/renderMessage/highlightWords.ts:9-10 | true exactly when the list is defined and some entry is defined and not blank |
| HighlightWords.WordsToHighlight | apps/meteor/client/startup/renderMessage/highlightWords.ts:17-19 | the computed words are the reference filter of the list (empty for no list) |
| HighlightWords.FilteredOnlyKept | apps/meteor/client/startup/renderMessage/highlightWords.ts:18 | every word is an entry of the list, untrimmed, and not blank |
| HighlightWords.FilteredKeepsAll | apps/meteor/client/startup/renderMessage/highlightWords.ts:18 | every defined, non-blank entry is among the words |
| HighlightWords.FilteredAppend | apps/meteor/client/startup/renderMessage/highlightWords.ts:18 | filtering a concatenation concatenates the filtered parts, so the order is kept |
| HighlightWords.FilteredNonEmpty | apps/meteor/client/startup/renderMessage/highlightWords.ts:10-18 | there is a word exactly when some entry is defined and not blank |
| HighlightWords.EnabledIffWords | apps/meteor/client/startup/renderMessage/highlightWords.ts:10-18 | `isEnabled` holds exactly when `wordsToHighlight` is non-empty |
| HighlightWords.RemoveHighlight | apps/meteor/client/startup/renderMessage/highlightWords.ts:12-14 | afterwards no `'highlight-words'` renderer is registered, and every other callback is still there |
| HighlightWords.AddCallback | apps/meteor/client/startup/renderMessage/highlightWords.ts:24 | the new callback is added, one more highlight renderer if it is one, and the other callbacks are unchanged |
| HighlightWords.OnHighlightsChanged | apps/meteor/client/startup/renderMessage/highlightWords.ts:8-25 | disabled: no highlight renderer remains. Enabled: exactly one remains, built from the current words at priority MEDIUM + 1. Either way, the callbacks other than the highlight renderer are exactly those before |

## Left out

- The Meteor and Tracker runtime (`Tracker.autorun`, `nonreactive`, `observeChanges` registration, `Meteor.user()` / `userId()`): the viewer, the subscription collection and the change events are parameters, and each reactive run is one function call.
- The asynchronous fetch in `init` (`getProviderUiMetadata`, `getSupportedLanguages`), its permission gate and its error logging: `supportedLanguages` is a field of the state the caller fills, and `providersMetadata` is not modelled.
- `window.defaultUserLanguage`: unreachable, since the user's language already defaults to `en`.
- `isTranslatedMessageAttachment`, `hasTranslationLanguageInAttachments` and `hasTranslationLanguageInMessage`: their definitions are not part of this model; they are function parameters.
- `Messages.update`: the handler returns the modifier as an `Update`; `ApplyUpdate` shows its effect.
- Object identity: the source mutates messages and attachments in place; the model returns new values. An attachment object shared twice within one tree would be rewritten twice in the source; the model treats the tree as a value.
- Subscription changes that move a subscription to another room: the source's observer does receive a change carrying `rid`, but `rid` is not a watched field, so it leaves the memo as it is and the old room's entry keeps serving the moved subscription (the memo goes stale). The model's `ChangedFields` has no `rid`, so this case is not modelled and `SubscriptionCache.ChangeKeepsCoherence` covers only changes to the modelled fields: `autoTranslate`, `autoTranslateLanguage` and the other fields (stood in for by `name`).
- `added` / `removed` subscription events: the source's observer has no callback for them.
- AttachmentDecorator.TranslateOne: the clauses about the new text, description and `original` are stated for a language other than the reserved key `original`; the body also covers that case.
- MessageDecorator.Decorate: the clauses about the new html are stated for a language other than the reserved key `original`; the body also covers that case.
- MessageDecorator.HtmlStableOnSecondRender: requires that the attachment check answers the same on the rewritten attachments, since its definition is not part of this model.
- StreamHandler.StopFetchingSettles: requires that the message check does not read the fetching flag, since its definition is not part of this model.
- Sms.ToLower: lowercasing is modelled for ASCII letters only, while JavaScript's `toLowerCase` also folds capitals of other scripts (`É` to `é`). This shapes `Sms.GetService`, `Sms.IsConfiguredService`, `Sms.OnSmsService` and `Sms.LowercaseRegistrationFound`: a provider registered as `É` is found by the query `É` in the model, while the source lowercases the query to `é` and reports it not configured.
- Sms.GetService: the registry, the waiting message ids and the translations are modelled as maps without the keys a plain JavaScript object inherits from `Object.prototype`. So `getService('constructor')` with SMS enabled is `Err(ServiceNotConfigured)` in the model, while the source finds the inherited `Object` and returns `new Object(null, null, null)`; `getService('__proto__')` throws a TypeError in the source. Likewise a message id or language named `constructor` is never found in the model's waiting ids or translations.
- The SMS provider constructors are represented by their identity (`ProviderClass`); constructing a provider is the `SmsService` record of its arguments. `accountSid`, `authToken` and `fromNumber` are never assigned in this file and are passed through as they stand.
- React rendering of the departments table: header cells, rows, permissions, debouncing (the query is built from the params as given), routing and `useEndpointData`. Also `JSON.stringify` formatting and key order: the `fields` projection is a list of names and the sort a map. `NaN` numbers are not modelled.
- The dynamic `import()` in the highlight hook: the registration that follows it is modelled as happening in the same step, so two runs racing on the import are not modelled. The callbacks registry is a list that `add` appends to; ordering by priority belongs to the callbacks library, which is not part of this model, and the `MEDIUM` priority is a parameter.
- `appRoot.tsx` and `settingsOnLoadSiteUrl.ts`: DOM mounting and a global configuration write, with no logic to state.
- `EditDepartmentWithAllowedForwardData.tsx`: a loading and error wrapper around an endpoint call.
- The `e2e.ts`, `otr.ts` and `cleanHistory.ts` toolbar actions: UI descriptors gated by one-line permission and setting checks, touching crypto modules that are not part of this model.

=== FILE: attachments.dfy ===
/** `AutoTranslate.translateAttachments`: the recursive rewrite of an
    attachment tree's `text` and `description` into the target language. */
module AttachmentDecorator {
  import opened Values
  import opened Chat

  /** `isTranslatedMessageAttachment`, the shape check on the whole list; its
      definition is not part of this model, so callers supply it. */
  type ShapeGuard = seq<Attachment> -> bool

  /** `field && translations && translations[language]`: the field has text to
      replace and a translation for it exists. */
  predicate Applies(field: Option<string>, tr: Option<Translations>, language: string) {
    Truthy(field) && tr.Some? && HasTranslation(tr.value, language)
  }

  /** One of the two field steps: keep the old text under `original`, then show
      either that original (`showInverse`) or the translation. */
  function TranslateField(field: Option<string>, tr: Option<Translations>, language: string, showInverse: bool)
    : (r: (Option<string>, Option<Translations>))
    ensures !Applies(field, tr, language) ==> r == (field, tr)
    ensures Applies(field, tr, language) ==> r.1 == Some(tr.value[OriginalKey := field])
    ensures showInverse ==> r.0 == field
    ensures Applies(field, tr, language) && !showInverse && language != OriginalKey ==> r.0 == tr.value[language]
    ensures Applies(field, tr, language) && !showInverse ==> r.0 == tr.value[OriginalKey := field][language]
  {
    if Applies(field, tr, language) then
      var t := tr.value[OriginalKey := field];
      (if showInverse then t[OriginalKey] else t[language], Some(t))
    else
      (field, tr)
  }

  /** The part of an attachment tree the rewrite never changes: authors and
      the nesting structure. */
  datatype Skeleton = Skeleton(author: Option<string>, children: SkeletonChildren)
  datatype SkeletonChildren = NoChildren | Children(items: seq<Skeleton>)

  function ShapeOf(a: Attachment): Skeleton
    decreases a, 1
  {
    Skeleton(a.authorName,
             match a.attachments
             case NoNested => NoChildren
             case Nested(items) => Children(ShapesOf(items)))
  }

  function ShapesOf(atts: seq<Attachment>): seq<Skeleton>
    decreases atts, 0
  {
    seq(|atts|, i requires 0 <= i < |atts| => ShapeOf(atts[i]))
  }

  /** The body of the loop in `translateAttachments` for one attachment. */
  function TranslateOne(a: Attachment, language: string, showInverse: bool, username: string, guard: ShapeGuard)
    : (r: Attachment)
    decreases a, 1
    ensures a.authorName == Some(username) ==> r == a
    ensures ShapeOf(r) == ShapeOf(a)
    ensures showInverse ==> r.text == a.text && r.description == a.description
    ensures !Applies(a.text, a.translations, language) ==> r.text == a.text
    ensures a.authorName != Some(username) && Applies(a.text, a.translations, language)
            && !showInverse && language != OriginalKey
            ==> r.text == a.translations.value[language]
    ensures language != OriginalKey && !Applies(a.description, a.translations, language)
            ==> r.description == a.description
    ensures a.authorName != Some(username) && Applies(a.description, a.translations, language)
            && !showInverse && language != OriginalKey
            ==> r.description == a.translations.value[language]
    ensures !Applies(a.text, a.translations, language) && !Applies(a.description, a.translations, language)
            ==> r.translations == a.translations
    ensures a.authorName != Some(username) && language != OriginalKey
            && Applies(a.text, a.translations, language) && !Applies(a.description, a.translations, language)
            ==> r.translations == Some(a.translations.value[OriginalKey := a.text])
    ensures a.authorName != Some(username) && language != OriginalKey
            && Applies(a.description, a.translations, language)
            ==> r.translations == Some(a.translations.value[OriginalKey := a.description])
  {
    if a.authorName == Some(username) then a
    else
      var (text, tr1) := TranslateField(a.text, a.translations, language, showInverse);
      var (description, tr2) := TranslateField(a.description, tr1, language, showInverse);
      assert Applies(a.text, a.translations, language) && Applies(a.description, tr1, language) ==>
        tr2.value == a.translations.value[OriginalKey := a.description];
      var nested :=
        match a.attachments
        case Nested(items) =>
          // the recursive call passes no `showInverse`, so it is falsy
          if |items| > 0 then Nested(TranslateAttachments(items, language, false, username, guard))
          else a.attachments
        case NoNested => a.attachments;
      a.(text := text, description := description, translations := tr2, attachments := nested)
  }

  /** `translateAttachments(attachments, language, showInverse)`, for the
      viewer `username`. */
  function TranslateAttachments(atts: seq<Attachment>, language: string, showInverse: bool, username: string,
                                guard: ShapeGuard): (r: seq<Attachment>)
    decreases atts, 0
    ensures |r| == |atts|
    ensures !guard(atts) ==> r == atts
    ensures ShapesOf(r) == ShapesOf(atts)
    ensures forall i :: 0 <= i < |atts| && atts[i].authorName == Some(username) ==> r[i] == atts[i]
    ensures showInverse ==> forall i :: 0 <= i < |atts| ==> r[i].text == atts[i].text
    ensures showInverse ==> forall i :: 0 <= i < |atts| ==> r[i].description == atts[i].description
    ensures guard(atts) ==> forall i :: 0 <= i < |atts| ==> r[i] == TranslateOne(atts[i], language, showInverse, username, guard)
    ensures guard(atts) && !showInverse && language != OriginalKey ==>
              forall i :: 0 <= i < |atts| && atts[i].authorName != Some(username)
                          && Applies(atts[i].text, atts[i].translations, language)
                          ==> r[i].text == atts[i].translations.value[language]
  {
    if !guard(atts) then atts
    else seq(|atts|, i requires 0 <= i < |atts| => TranslateOne(atts[i], language, showInverse, username, guard))
  }

  /** The inverse flag is not forwarded: nested attachments are decorated the
      same way whether or not the parent shows the original. */
  lemma NestedIgnoresShowInverse(a: Attachment, language: string, username: string, guard: ShapeGuard)
    ensures TranslateOne(a, language, true, username, guard).attachments
            == TranslateOne(a, language, false, username, guard).attachments
  {
  }

  /** So a nested attachment of someone else with a translation always shows
      the translated text, even when the message asks for the original. */
  lemma NestedAlwaysTranslated(a: Attachment, language: string, showInverse: bool, username: string,
                               guard: ShapeGuard, j: nat)
    requires a.authorName != Some(username) && a.attachments.Nested?
    requires guard(a.attachments.items) && j < |a.attachments.items|
    requires a.attachments.items[j].authorName != Some(username)
    requires Applies(a.attachments.items[j].text, a.attachments.items[j].translations, language)
    requires language != OriginalKey
    ensures TranslateOne(a, language, showInverse, username, guard).attachments.items[j].text
            == a.attachments.items[j].translations.value[language]
  {
    var items := a.attachments.items;
    var out := TranslateOne(a, language, showInverse, username, guard).attachments.items;
    assert out == TranslateAttachments(items, language, false, username, guard);
    assert out[j] == TranslateOne(items[j], language, false, username, guard);
  }
}

=== FILE: chat.dfy ===
/** The chat records the auto-translate client reads and rewrites: messages,
    their recursive attachment trees, the viewing user and room subscriptions. */
module Chat {
  import opened Values

  /** `translations`: language tag to translated text, plus the reserved key
      `original`, which may hold `undefined` when a message had no html. */
  type Translations = map<string, Option<string>>

  /** The reserved key that keeps the untranslated text. */
  const OriginalKey: string := "original"

  /** `translations[language]` is truthy. */
  predicate HasTranslation(tr: Translations, language: string) {
    language in tr && Truthy(tr[language])
  }

  /** A message attachment; `attachments` nests further attachments to any depth. */
  datatype Attachment = Attachment(
    text: Option<string>,
    description: Option<string>,
    translations: Option<Translations>,
    authorName: Option<string>,
    attachments: NestedAttachments)

  /** The optional `attachments` field of an attachment. */
  datatype NestedAttachments = NoNested | Nested(items: seq<Attachment>)

  /** The signed-in user, as `Meteor.user()` returns it. */
  datatype User = User(id: string, username: Option<string>, language: Option<string>)

  /** The sender reference `u` of a message. */
  datatype Sender = Sender(id: string)

  datatype Message = Message(
    id: string,
    rid: string,
    u: Option<Sender>,
    msg: Option<string>,
    html: Option<string>,
    translations: Option<Translations>,
    attachments: Option<seq<Attachment>>,
    autoTranslateFetching: Option<bool>,
    autoTranslateShowInverse: Option<bool>)

  /** A user's per-room preferences; `name` stands for every field the
      auto-translate code does not watch. */
  datatype Subscription = Subscription(
    id: string,
    rid: string,
    autoTranslate: Option<bool>,
    autoTranslateLanguage: Option<string>,
    name: string)

  datatype SupportedLanguage = SupportedLanguage(language: string, name: Option<string>)

  /** `Meteor.userId()`: absent when nobody is signed in. */
  function UserId(user: Option<User>): Option<string> {
    if user.Some? then Some(user.value.id) else None
  }

  /** `user?.username || ''`. */
  function Username(user: Option<User>): string {
    if user.Some? && Truthy(user.value.username) then user.value.username.value else ""
  }

  /** `message.u && message.u._id !== Meteor.userId()`: the message has a sender
      and the sender is not the viewer. */
  predicate IsForeign(m: Message, user: Option<User>) {
    m.u.Some? && Some(m.u.value.id) != UserId(user)
  }
}

=== FILE: departments.dfy ===
/** The departments table: its sort state machine and the query record it
    sends to the `livechat/department` endpoint. */
module Departments {
  import opened Values

  datatype Direction = Asc | Desc

  /** The direction as the component spells it. */
  function DirectionName(d: Direction): string {
    match d
    case Asc => "asc"
    case Desc => "desc"
  }

  /** `SortingParams`: the sorted column and its direction. */
  datatype SortState = SortState(column: string, direction: Direction)

  /** `GenericTableParams`; an absent field is `None`. */
  datatype TableParams = TableParams(text: Option<string>, current: Option<int>, itemsPerPage: Option<int>)

  /** `sortDir`: `1` for `'asc'`, `-1` for anything else. */
  function SortDir(name: string): (r: int)
    ensures r == 1 <==> name == "asc"
    ensures r == -1 <==> name != "asc"
  {
    if name == "asc" then 1 else -1
  }

  /** The `sort` object once `JSON.stringify` drops its `undefined` member:
      the column's direction, and the same under `usernames` when sorting by
      name. */
  function SortSpec(sort: SortState): (r: map<string, int>)
    ensures sort.column != "usernames" ==> sort.column in r && r[sort.column] == SortDir(DirectionName(sort.direction))
    ensures sort.column == "name" ==> r == map["name" := SortDir(DirectionName(sort.direction)),
                                              "usernames" := SortDir(DirectionName(sort.direction))]
    ensures sort.column != "name" ==> "usernames" !in r
    ensures sort.column != "name" && sort.column != "usernames" ==> r.Keys == {sort.column}
  {
    var dir := SortDir(DirectionName(sort.direction));
    // the literal's `usernames` member comes after the computed `[column]` one
    var m := map[sort.column := dir];
    if sort.column == "name" then m["usernames" := dir] else m - {"usernames"}
  }

  /** The fields the table asks for. */
  const Fields: seq<string> := ["name", "username", "emails", "avatarETag"]

  /** The query record built by `useQuery`. */
  datatype Query = Query(
    fields: seq<string>,
    text: string,
    sort: map<string, int>,
    count: Option<int>,
    offset: Option<int>,
    onlyMyDepartments: string)

  /** `String(onlyMyDepartments)`. */
  function BoolString(b: Option<bool>): string {
    match b
    case Some(true) => "true"
    case Some(false) => "false"
    case None => "undefined"
  }

  /** `useQuery(params, sort, onlyMyDepartments)`. */
  function BuildQuery(params: TableParams, sort: SortState, onlyMyDepartments: Option<bool>): (r: Query)
    ensures r.text == params.text.GetOr("")
    ensures r.count.Some? <==> TruthyNumber(params.itemsPerPage)
    ensures r.count.Some? ==> r.count == params.itemsPerPage
    ensures r.offset.Some? <==> TruthyNumber(params.current)
    ensures r.offset.Some? ==> r.offset == params.current
    ensures r.sort == SortSpec(sort)
    ensures r.fields == Fields
    ensures onlyMyDepartments.Some? ==> r.onlyMyDepartments in {"true", "false"}
    ensures onlyMyDepartments == Some(true) <==> r.onlyMyDepartments == "true"
    ensures onlyMyDepartments.None? ==> r.onlyMyDepartments == "undefined"
  {
    Query(Fields,
          params.text.GetOr(""),
          SortSpec(sort),
          if TruthyNumber(params.itemsPerPage) then params.itemsPerPage else None,
          if TruthyNumber(params.current) then params.current else None,
          BoolString(onlyMyDepartments))
  }

  /** `onHeaderClick(id)`. */
  function OnHeaderClick(sort: SortState, id: string): (r: SortState)
    ensures r.column == id
    ensures sort.column == id ==> r.direction != sort.direction
    ensures sort.column != id ==> r.direction == Asc
  {
    if sort.column == id then
      SortState(id, if sort.direction == Asc then Desc else Asc)
    else
      SortState(id, Asc)
  }

  /** The component's initial table parameters and sort. */
  const InitialParams: TableParams := TableParams(Some(""), Some(0), Some(25))
  const InitialSort: SortState := SortState("name", Asc)

  /** The route always asks for the viewer's own departments. */
  const OnlyMyDepartments: Option<bool> := Some(true)

  /** Two clicks on the sorted column restore the sort. */
  lemma DoubleClickRestores(sort: SortState)
    ensures OnHeaderClick(OnHeaderClick(sort, sort.column), sort.column) == sort
  {
  }

  /** Clicking a new column twice ends sorted by it, descending. */
  lemma NewColumnTwiceIsDescending(sort: SortState, id: string)
    requires sort.column != id
    ensures OnHeaderClick(OnHeaderClick(sort, id), id) == SortState(id, Desc)
  {
  }

  /** The first page is sent without an offset, since `0` is falsy. */
  lemma FirstPageHasNoOffset(params: TableParams, sort: SortState, only: Option<bool>)
    requires params.current == Some(0)
    ensures BuildQuery(params, sort, only).offset == None
  {
  }

  /** The initial query: name ascending (also on `usernames`), 25 per page,
      no offset, empty text, own departments only. */
  lemma InitialQuery()
    ensures var q := BuildQuery(InitialParams, InitialSort, OnlyMyDepartments);
            && q.sort == map["name" := 1, "usernames" := 1]
            && q.count == Some(25) && q.offset == None
            && q.text == "" && q.onlyMyDepartments == "true"
  {
  }

  /** A column named `usernames` would overwrite itself with `undefined`, so
      the serialized sort is empty. */
  lemma UsernamesColumnSortsNothing(d: Direction)
    ensures SortSpec(SortState("usernames", d)) == map[]
  {
  }
}

=== FILE: highlight_words.dfy ===
/** The highlight-words start-up hook: it reads the user's `highlights`
    preference, keeps the entries that are not blank, and keeps at most one
    `'highlight-words'` message renderer registered. */
module HighlightWords {
  import opened Values

  /** The characters `String.prototype.trim` removes: ECMAScript WhiteSpace
      (tab, vertical tab, form feed, space, no-break space, byte order mark and
      the Unicode space separators) and LineTerminator. */
  predicate IsWhitespace(c: char) {
    || c in {'\t', '\n', '\U{000B}', '\U{000C}', '\r', ' ', '\U{00A0}', '\U{1680}',
             '\U{2028}', '\U{2029}', '\U{202F}', '\U{205F}', '\U{3000}', '\U{FEFF}'}
    || ('\U{2000}' <= c <= '\U{200A}')
  }

  predicate IsBlank(s: string) {
    forall i :: 0 <= i < |s| ==> IsWhitespace(s[i])
  }

  /** Drops leading whitespace. */
  function TrimStart(s: string): (r: string)
    ensures |r| <= |s| && r == s[|s| - |r|..]
    ensures IsBlank(s[..|s| - |r|])
    ensures r == "" || !IsWhitespace(r[0])
  {
    if |s| > 0 && IsWhitespace(s[0]) then
      var r := TrimStart(s[1..]);
      assert s[..|s| - |r|] == [s[0]] + s[1..][..|s| - 1 - |r|];
      r
    else s
  }

  /** Drops trailing whitespace. */
  function TrimEnd(s: string): (r: string)
    ensures |r| <= |s| && r == s[..|r|]
    ensures IsBlank(s[|r|..])
    ensures r == "" || !IsWhitespace(r[|r| - 1])
  {
    if |s| > 0 && IsWhitespace(s[|s| - 1]) then
      var r := TrimEnd(s[..|s| - 1]);
      assert s[|r|..] == s[..|s| - 1][|r|..] + [s[|s| - 1]];
      r
    else s
  }

  /** `s.trim()`. */
  function Trim(s: string): string {
    TrimEnd(TrimStart(s))
  }

  /** `s.trim()` is empty exactly when `s` is all whitespace. */
  lemma TrimEmptyIffBlank(s: string)
    ensures Trim(s) == "" <==> IsBlank(s)
  {
    var t := TrimStart(s);
    if Trim(s) == "" {
      assert IsBlank(t[0..]);
      assert t == "";
      assert s[..|s|] == s;
    }
  }

  /** `!!highlight?.trim()`: the entry is defined and not blank. */
  predicate Kept(h: Option<string>) {
    h.Some? && Trim(h.value) != ""
  }

  /** The reference filter: the kept entries, untrimmed, in their order. */
  function Filtered(hs: seq<Option<string>>): seq<string> {
    if |hs| == 0 then []
    else Filtered(hs[..|hs| - 1]) + (if Kept(hs[|hs| - 1]) then [hs[|hs| - 1].value] else [])
  }

  /** The filter distributes over concatenation, so it keeps the order. */
  lemma {:induction false} FilteredAppend(a: seq<Option<string>>, b: seq<Option<string>>)
    ensures Filtered(a + b) == Filtered(a) + Filtered(b)
    decreases |b|
  {
    if |b| == 0 {
      assert a + b == a;
    } else {
      var b' := b[..|b| - 1];
      var last := b[|b| - 1];
      assert (a + b)[..|a + b| - 1] == a + b';
      assert (a + b)[|a + b| - 1] == last;
      FilteredAppend(a, b');
      var tail := if Kept(last) then [last.value] else [];
      calc {
        Filtered(a + b);
        Filtered(a + b') + tail;
        Filtered(a) + Filtered(b') + tail;
        Filtered(a) + (Filtered(b') + tail);
      }
    }
  }

  /** Every word the filter returns is an entry of the list and not blank. */
  lemma {:induction false} FilteredOnlyKept(hs: seq<Option<string>>, w: string)
    requires w in Filtered(hs)
    ensures Some(w) in hs && Trim(w) != ""
  {
    var init := hs[..|hs| - 1];
    var last := hs[|hs| - 1];
    if w in Filtered(init) {
      FilteredOnlyKept(init, w);
      assert init[..|init|] == init;
      var k :| 0 <= k < |init| && init[k] == Some(w);
      assert hs[k] == Some(w);
    } else {
      assert Kept(last) && w == last.value;
    }
  }

  /** Every non-blank entry appears among the words. */
  lemma {:induction false} FilteredKeepsAll(hs: seq<Option<string>>, i: nat)
    requires i < |hs| && Kept(hs[i])
    ensures hs[i].value in Filtered(hs)
  {
    var init := hs[..|hs| - 1];
    if i < |hs| - 1 {
      assert init[i] == hs[i];
      FilteredKeepsAll(init, i);
    }
  }

  /** There is a word exactly when some entry is not blank. */
  lemma FilteredNonEmpty(hs: seq<Option<string>>)
    ensures |Filtered(hs)| > 0 <==> exists i :: 0 <= i < |hs| && Kept(hs[i])
  {
    if |Filtered(hs)| > 0 {
      var w := Filtered(hs)[0];
      FilteredOnlyKept(hs, w);
      var k :| 0 <= k < |hs| && hs[k] == Some(w);
      assert Kept(hs[k]);
    }
    if i :| 0 <= i < |hs| && Kept(hs[i]) {
      FilteredKeepsAll(hs, i);
    }
  }

  /** `highlights?.some((h) => h?.trim()) ?? false`. */
  predicate Enabled(highlights: Option<seq<Option<string>>>) {
    highlights.Some? && exists i :: 0 <= i < |highlights.value| && Kept(highlights.value[i])
  }

  /** `isEnabled`, computed as `some` does: stop at the first kept entry. */
  method IsEnabled(highlights: Option<seq<Option<string>>>) returns (enabled: bool)
    ensures enabled <==> Enabled(highlights)
  {
    if highlights.None? {
      return false;
    }
    var hs := highlights.value;
    var i := 0;
    while i < |hs|
      invariant 0 <= i <= |hs|
      invariant forall j :: 0 <= j < i ==> !Kept(hs[j])
    {
      if Kept(hs[i]) {
        return true;
      }
      i := i + 1;
    }
    return false;
  }

  /** `options.wordsToHighlight`: `highlights?.filter(...) || []`. */
  method WordsToHighlight(highlights: Option<seq<Option<string>>>) returns (words: seq<string>)
    ensures words == Filtered(highlights.GetOr([]))
  {
    var hs := highlights.GetOr([]);
    words := [];
    var i := 0;
    while i < |hs|
      invariant 0 <= i <= |hs|
      invariant words == Filtered(hs[..i])
    {
      assert hs[..i + 1][..i] == hs[..i];
      if Kept(hs[i]) {
        words := words + [hs[i].value];
      }
      i := i + 1;
    }
    assert hs[..i] == hs;
  }

  /** The hook is enabled exactly when there is a word to highlight. */
  lemma EnabledIffWords(highlights: Option<seq<Option<string>>>)
    ensures Enabled(highlights) <==> |Filtered(highlights.GetOr([]))| > 0
  {
    FilteredNonEmpty(highlights.GetOr([]));
  }

  /** What a registered callback does: the highlight renderer for some words,
      or anything else. */
  datatype Renderer = HighlightRenderer(words: seq<string>) | OtherRenderer(name: string)

  /** An entry of the `callbacks` registry. */
  datatype Callback = Callback(hook: string, id: string, priority: int, renderer: Renderer)

  const Hook: string := "renderMessage"
  const HighlightId: string := "highlight-words"

  predicate IsHighlight(c: Callback) {
    c.hook == Hook && c.id == HighlightId
  }

  /** How many highlight callbacks are registered. */
  function HighlightCount(reg: seq<Callback>): nat {
    if |reg| == 0 then 0
    else HighlightCount(reg[..|reg| - 1]) + (if IsHighlight(reg[|reg| - 1]) then 1 else 0)
  }

  lemma HighlightCountAppend(reg: seq<Callback>, c: Callback)
    ensures HighlightCount(reg + [c]) == HighlightCount(reg) + (if IsHighlight(c) then 1 else 0)
  {
    assert (reg + [c])[..|reg|] == reg;
  }

  /** `callbacks.remove('renderMessage', 'highlight-words')`. */
  function RemoveHighlight(reg: seq<Callback>): (r: seq<Callback>)
    ensures HighlightCount(r) == 0
    ensures forall c :: c in r <==> c in reg && !IsHighlight(c)
    ensures HighlightCount(reg) == 0 ==> r == reg
  {
    if |reg| == 0 then []
    else
      var last := reg[|reg| - 1];
      var init := reg[..|reg| - 1];
      assert reg == init + [last];
      var kept := RemoveHighlight(init);
      HighlightCountAppend(kept, last);
      HighlightCountAppend(init, last);
      if IsHighlight(last) then kept else kept + [last]
  }

  /** `callbacks.add(...)`: the new callback joins the registry. */
  function AddCallback(reg: seq<Callback>, c: Callback): (r: seq<Callback>)
    ensures HighlightCount(r) == HighlightCount(reg) + (if IsHighlight(c) then 1 else 0)
    ensures IsHighlight(c) ==> RemoveHighlight(r) == RemoveHighlight(reg)
    ensures c in r && forall d :: d in reg ==> d in r
  {
    var r := reg + [c];
    assert r[..|r| - 1] == reg;
    HighlightCountAppend(reg, c);
    r
  }

  /** One run of the autorun once the renderer module has loaded: remove the
      old renderer, and add a new one for the current words when enabled.
      `IsEnabled` and `WordsToHighlight` compute `Enabled` and `Filtered`. */
  function OnHighlightsChanged(reg: seq<Callback>, highlights: Option<seq<Option<string>>>, mediumPriority: int)
    : (updated: seq<Callback>)
    ensures !Enabled(highlights) ==> HighlightCount(updated) == 0
    ensures Enabled(highlights) ==> HighlightCount(updated) == 1
    ensures Enabled(highlights) ==>
              Callback(Hook, HighlightId, mediumPriority + 1, HighlightRenderer(Filtered(highlights.GetOr([])))) in updated
    ensures forall c :: c in updated && IsHighlight(c) ==>
              c.renderer == HighlightRenderer(Filtered(highlights.GetOr([])))
    ensures RemoveHighlight(updated) == RemoveHighlight(reg)
  {
    var cleared := RemoveHighlight(reg);
    if Enabled(highlights) then
      AddCallback(cleared, Callback(Hook, HighlightId, mediumPriority + 1,
                                    HighlightRenderer(Filtered(highlights.GetOr([])))))
    else
      cleared
  }
}

=== FILE: language.dfy ===
/** `AutoTranslate.getLanguage`: the room's target language, from the
    subscription, then the user, then `'en'`, with region tags the server does
    not support cut down to their first two characters. */
module LanguageResolver {
  import opened Values
  import opened Chat
  import opened SubscriptionCache

  /** `getUserLanguage()`: the user's language or `'en'`. */
  const DefaultUserLanguage: string := "en"

  /** `subscription?.autoTranslateLanguage || getUserLanguage()`. The final
      `window.defaultUserLanguage` fallback is never reached, because the
      user's language already falls back to `'en'`. */
  function PreferredLanguage(sub: Option<Subscription>, user: Option<User>): (r: string)
    ensures r != ""
    ensures HasRoomLanguage(sub) ==> r == sub.value.autoTranslateLanguage.value
    ensures !HasRoomLanguage(sub) && HasUserLanguage(user) ==> r == user.value.language.value
    ensures !HasRoomLanguage(sub) && !HasUserLanguage(user) ==> r == DefaultUserLanguage
  {
    if HasRoomLanguage(sub) then sub.value.autoTranslateLanguage.value
    else if HasUserLanguage(user) then user.value.language.value
    else DefaultUserLanguage
  }

  /** `subscription?.autoTranslateLanguage` is truthy. */
  predicate HasRoomLanguage(sub: Option<Subscription>) {
    sub.Some? && Truthy(sub.value.autoTranslateLanguage)
  }

  /** `user?.language` is truthy. */
  predicate HasUserLanguage(user: Option<User>) {
    user.Some? && Truthy(user.value.language)
  }

  /** `(supportedLanguages || []).some(l => l.language === tag)`. */
  predicate IsSupported(supported: Option<seq<SupportedLanguage>>, tag: string) {
    supported.Some? && exists i :: 0 <= i < |supported.value| && supported.value[i].language == tag
  }

  /** `tag.slice(0, 2)`. */
  function Prefix2(tag: string): (r: string)
    ensures |r| == if |tag| < 2 then |tag| else 2
    ensures r <= tag
  {
    if |tag| < 2 then tag else tag[..2]
  }

  /** The region-stripping rule: a tag containing `-` that is not itself a
      supported language becomes its first two characters. */
  function NormalizeTag(tag: string, supported: Option<seq<SupportedLanguage>>): (r: string)
    ensures '-' in tag && !IsSupported(supported, tag) ==> r == Prefix2(tag)
    ensures '-' !in tag || IsSupported(supported, tag) ==> r == tag
    ensures r <= tag
    ensures tag != "" ==> r != ""
  {
    if '-' in tag && !IsSupported(supported, tag) then Prefix2(tag) else tag
  }

  /** `getLanguage(rid)`; the subscription is looked up (through the memo)
      only for a non-empty room id. */
  function GetLanguage(s: AutoTranslateState, store: seq<Subscription>, rid: string, user: Option<User>)
    : (r: (string, AutoTranslateState))
    ensures r.0 != ""
    ensures rid == "" ==> r.1 == s && r.0 == NormalizeTag(PreferredLanguage(None, user), s.supportedLanguages)
    ensures rid != "" ==> r.1 == FindSubscriptionByRid(s, store, rid).1
    ensures rid != "" ==> r.0 == NormalizeTag(PreferredLanguage(FindSubscriptionByRid(s, store, rid).0, user), s.supportedLanguages)
    ensures r.1.supportedLanguages == s.supportedLanguages && r.1.initialized == s.initialized
  {
    var (sub, s') := if rid != "" then FindSubscriptionByRid(s, store, rid) else (None, s);
    (NormalizeTag(PreferredLanguage(sub, user), s.supportedLanguages), s')
  }

  /** A subscription's own language wins over whatever the user prefers. */
  lemma SubscriptionLanguageWins(sub: Subscription, user: Option<User>, user': Option<User>)
    requires Truthy(sub.autoTranslateLanguage)
    ensures PreferredLanguage(Some(sub), user) == PreferredLanguage(Some(sub), user')
  {
  }

  /** Without a subscription language or a user language the result is `en`. */
  lemma NoPreferenceMeansEnglish(sub: Option<Subscription>, supported: Option<seq<SupportedLanguage>>)
    requires !HasRoomLanguage(sub)
    ensures NormalizeTag(PreferredLanguage(sub, None), supported) == "en"
  {
  }

  /** Before the supported languages arrive (absent or empty), every region
      tag is cut down to two characters. */
  lemma UnloadedLanguagesAlwaysTruncate(tag: string, supported: Option<seq<SupportedLanguage>>)
    requires supported == None || supported == Some([])
    requires '-' in tag
    ensures NormalizeTag(tag, supported) == Prefix2(tag)
  {
  }

  /** Normalizing an already normalized tag changes nothing. */
  lemma NormalizeIdempotent(tag: string, supported: Option<seq<SupportedLanguage>>)
    ensures NormalizeTag(NormalizeTag(tag, supported), supported) == NormalizeTag(tag, supported)
  {
    var t := NormalizeTag(tag, supported);
    if t != tag {
      assert t == Prefix2(tag);
      assert Prefix2(t) == t;
    }
  }

  /** A tag listed among the supported languages is kept whole. */
  lemma SupportedTagKept(tag: string, supported: seq<SupportedLanguage>, i: nat)
    requires i < |supported| && supported[i].language == tag
    ensures NormalizeTag(tag, Some(supported)) == tag
  {
  }
}

=== FILE: renderer.dfy ===
/** The closure `createAutoTranslateMessageRenderer` returns: it decorates a
    message of someone else for display, swapping its html and attachments
    for their translations when the room's setting and the message's inverse
    flag disagree. */
module MessageDecorator {
  import opened Values
  import opened Chat
  import opened SubscriptionCache
  import opened LanguageResolver
  import opened AttachmentDecorator

  /** `hasTranslationLanguageInAttachments`; its definition is not part of
      this model, so callers supply it. */
  type AttachmentLanguageCheck = (Option<seq<Attachment>>, string) -> bool

  /** `!!subscription?.autoTranslate !== !!message.autoTranslateShowInverse`. */
  predicate ShouldRewrite(sub: Option<Subscription>, m: Message) {
    (sub.Some? && TruthyBool(sub.value.autoTranslate)) != TruthyBool(m.autoTranslateShowInverse)
  }

  /** The translations map, created empty when the message had none. */
  function TranslationsOf(m: Message): Translations {
    m.translations.GetOr(map[])
  }

  /** The body of the renderer for a message, its room's subscription and the
      resolved language. */
  function Decorate(m: Message, sub: Option<Subscription>, language: string, user: Option<User>,
                    hasInAttachments: AttachmentLanguageCheck, guard: ShapeGuard): (r: Message)
    ensures !IsForeign(m, user) ==> r == m
    ensures IsForeign(m, user) ==> r.translations.Some?
    ensures IsForeign(m, user) ==> r.translations.value.Keys <= TranslationsOf(m).Keys + {OriginalKey}
    ensures IsForeign(m, user) && !ShouldRewrite(sub, m) ==> r == m.(translations := Some(TranslationsOf(m)))
    ensures IsForeign(m, user) && ShouldRewrite(sub, m) ==>
              OriginalKey in r.translations.value && r.translations.value[OriginalKey] == m.html
    ensures IsForeign(m, user) ==> forall k :: k in TranslationsOf(m) && k != OriginalKey ==>
              k in r.translations.value && r.translations.value[k] == TranslationsOf(m)[k]
    ensures IsForeign(m, user) && ShouldRewrite(sub, m) && language != OriginalKey
            && HasTranslation(TranslationsOf(m), language) && !hasInAttachments(m.attachments, language)
            ==> r.html == TranslationsOf(m)[language]
    ensures language != OriginalKey
            && (!HasTranslation(TranslationsOf(m), language) || hasInAttachments(m.attachments, language))
            ==> r.html == m.html
    ensures IsForeign(m, user) && ShouldRewrite(sub, m) && m.attachments.Some? && |m.attachments.value| > 0
            ==> r.attachments == Some(TranslateAttachments(m.attachments.value, language,
                                        TruthyBool(m.autoTranslateShowInverse), Username(user), guard))
    ensures r.attachments.Some? == m.attachments.Some?
    ensures r.attachments.Some? ==> ShapesOf(r.attachments.value) == ShapesOf(m.attachments.value)
    ensures r.id == m.id && r.rid == m.rid && r.u == m.u && r.msg == m.msg
    ensures r.autoTranslateFetching == m.autoTranslateFetching
    ensures r.autoTranslateShowInverse == m.autoTranslateShowInverse
  {
    if !IsForeign(m, user) then m
    else
      var tr := TranslationsOf(m);
      if !ShouldRewrite(sub, m) then m.(translations := Some(tr))
      else
        var tr' := tr[OriginalKey := m.html];
        var html :=
          if HasTranslation(tr', language) && !hasInAttachments(m.attachments, language) then tr'[language]
          else m.html;
        var attachments :=
          if m.attachments.Some? && |m.attachments.value| > 0 then
            Some(TranslateAttachments(m.attachments.value, language,
                                      TruthyBool(m.autoTranslateShowInverse), Username(user), guard))
          else m.attachments;
        m.(translations := Some(tr'), html := html, attachments := attachments)
  }

  /** One call of the renderer: look the room's subscription up, resolve the
      language (a second, memoised lookup), then decorate. */
  function Render(s: AutoTranslateState, store: seq<Subscription>, user: Option<User>,
                  hasInAttachments: AttachmentLanguageCheck, guard: ShapeGuard, m: Message)
    : (r: (Message, AutoTranslateState))
    ensures !IsForeign(m, user) ==> r.0 == m
    ensures m.rid in r.1.memo
    ensures r.1 == s.(memo := r.1.memo)
    ensures r.1 == FindSubscriptionByRid(s, store, m.rid).1
  {
    var (sub, s1) := FindSubscriptionByRid(s, store, m.rid);
    var (language, s2) := GetLanguage(s1, store, m.rid, user);
    (Decorate(m, sub, language, user, hasInAttachments, guard), s2)
  }

  /** Rendering keeps a coherent memo coherent. */
  lemma RenderKeepsCoherence(s: AutoTranslateState, store: seq<Subscription>, user: Option<User>,
                             hasInAttachments: AttachmentLanguageCheck, guard: ShapeGuard, m: Message)
    requires Coherent(s.memo, store)
    ensures Coherent(Render(s, store, user, hasInAttachments, guard, m).1.memo, store)
  {
    var s1 := FindSubscriptionByRid(s, store, m.rid).1;
    LookupKeepsCoherence(s, store, m.rid);
    LookupKeepsCoherence(s1, store, m.rid);
  }

  /** The language the renderer uses comes from the same subscription that
      decides whether to rewrite: the second lookup hits the memo. */
  lemma RenderUsesOneSubscription(s: AutoTranslateState, store: seq<Subscription>, user: Option<User>,
                                  hasInAttachments: AttachmentLanguageCheck, guard: ShapeGuard, m: Message)
    requires m.rid != ""
    ensures var sub := FindSubscriptionByRid(s, store, m.rid).0;
            Render(s, store, user, hasInAttachments, guard, m).0
            == Decorate(m, sub, NormalizeTag(PreferredLanguage(sub, user), s.supportedLanguages),
                        user, hasInAttachments, guard)
  {
  }

  /** Rendering an already rendered message again leaves its html as it was,
      provided the attachment check answers the same for the rewritten
      attachments. */
  lemma HtmlStableOnSecondRender(m: Message, sub: Option<Subscription>, language: string, user: Option<User>,
                                 hasInAttachments: AttachmentLanguageCheck, guard: ShapeGuard)
    requires language != OriginalKey
    requires hasInAttachments(Decorate(m, sub, language, user, hasInAttachments, guard).attachments, language)
             == hasInAttachments(m.attachments, language)
    ensures Decorate(Decorate(m, sub, language, user, hasInAttachments, guard), sub, language, user,
                     hasInAttachments, guard).html
            == Decorate(m, sub, language, user, hasInAttachments, guard).html
  {
    var once := Decorate(m, sub, language, user, hasInAttachments, guard);
    if IsForeign(m, user) && ShouldRewrite(sub, m) {
      assert ShouldRewrite(sub, once);
      assert HasTranslation(TranslationsOf(once), language) == HasTranslation(TranslationsOf(m), language);
    }
  }
}

=== FILE: scenarios.dfy ===
// Scenarios for the renderer and the stream handler, on a small
// conversation: `other` writes `Hola` in a room that `me` reads in English.

module Scenarios {
  import opened Values
  import opened Chat
  import opened MessageDecorator
  import opened StreamHandler

  /** A message from `other` with html `Hola` and an English translation. */
  function HolaMessage(showInverse: bool): Message {
    Message("m1", "r1", Some(Sender("other")), Some("Hola"), Some("Hola"),
            Some(map["en" := Some("Hello")]), None, None, Some(showInverse))
  }

  /** The viewer `me`, who reads English. */
  const Viewer: Option<User> := Some(User("me", Some("me"), Some("en")))

  /** The room subscription with auto-translate switched on or off. */
  function RoomSubscription(autoTranslate: bool): Option<Subscription> {
    Some(Subscription("s1", "r1", Some(autoTranslate), None, "general"))
  }

  /** With auto-translate on and the inverse flag off, `Hola` is shown as
      `Hello` and `Hola` is kept under `original`. */
  lemma HolaBecomesHello()
    ensures var r := Decorate(HolaMessage(false), RoomSubscription(true), "en", Viewer,
                              (a: Option<seq<Attachment>>, l: string) => false, (a: seq<Attachment>) => true);
            r.html == Some("Hello") && r.translations.value[OriginalKey] == Some("Hola")
  {
  }

  /** With auto-translate on and the inverse flag on, the two cancel out and
      the html stays `Hola`. */
  lemma InverseOfTranslatedRoomKeepsHtml()
    ensures Decorate(HolaMessage(true), RoomSubscription(true), "en", Viewer,
                     (a: Option<seq<Attachment>>, l: string) => false, (a: seq<Attachment>) => true).html
            == Some("Hola")
  {
  }

  /** With auto-translate off and the inverse flag on, the flags differ, so the
      message is rewritten and shows `Hello`. */
  lemma InverseOfPlainRoomShowsTranslation()
    ensures Decorate(HolaMessage(true), RoomSubscription(false), "en", Viewer,
                     (a: Option<seq<Attachment>>, l: string) => false, (a: seq<Attachment>) => true).html
            == Some("Hello")
  {
  }

  /** A second pass over the rendered `Hola` message stores the translated
      text, not `Hola`, under `original`: the translations are not stable. */
  lemma SecondRenderOverwritesOriginal()
    ensures var no := (a: Option<seq<Attachment>>, l: string) => false;
            var any := (a: seq<Attachment>) => true;
            var once := Decorate(HolaMessage(false), RoomSubscription(true), "en", Viewer, no, any);
            var twice := Decorate(once, RoomSubscription(true), "en", Viewer, no, any);
            once.translations.value[OriginalKey] == Some("Hola")
            && twice.translations.value[OriginalKey] == Some("Hello")
  {
  }

  /** A message with text and no translations, in a translating room, is
      marked as fetching. */
  lemma UntranslatedMessageIsFetched()
    ensures var m := Message("m1", "r1", Some(Sender("other")), Some("Hola"), Some("Hola"), None, None, None, None);
            Decide(m, RoomSubscription(true), "en", Viewer, map[],
                   (x: Message, l: string) => false, (a: Option<seq<Attachment>>, l: string) => false).0
            == Some(RequestTranslation)
  {
  }
}

=== FILE: sms.dfy ===
/** The SMS worker: a registry of provider constructors by name, looked up
    case-insensitively when SMS is enabled, and the three settings watchers
    that feed it. */
module Sms {
  import opened Values

  predicate IsUpper(c: char) {
    'A' <= c <= 'Z'
  }

  /** `toLowerCase` on one character, for the ASCII letters only. */
  function LowerChar(c: char): (r: char)
    ensures !IsUpper(r)
    ensures !IsUpper(c) ==> r == c
    ensures IsUpper(c) ==> r != c && r as int == c as int + 32
  {
    if IsUpper(c) then (c as int + 32) as char else c
  }

  /** `name.toLowerCase()`. */
  function ToLower(s: string): (r: string)
    ensures |r| == |s|
    ensures forall i :: 0 <= i < |s| ==> r[i] == LowerChar(s[i])
  {
    seq(|s|, i requires 0 <= i < |s| => LowerChar(s[i]))
  }

  predicate HasUpper(s: string) {
    exists i :: 0 <= i < |s| && IsUpper(s[i])
  }

  /** A lowercased name has no uppercase letter, and lowercasing it again
      changes nothing. */
  lemma ToLowerNormalizes(s: string)
    ensures !HasUpper(ToLower(s))
    ensures ToLower(ToLower(s)) == ToLower(s)
  {
  }

  /** The identity of an `ISMSProviderConstructor`. */
  datatype ProviderClass = ProviderClass(name: string)

  /** `new Provider(accountSid, authToken, fromNumber)`. */
  datatype SmsService = SmsService(provider: ProviderClass, accountSid: Option<string>,
                                   authToken: Option<string>, fromNumber: Option<string>)

  /** The two `Meteor.Error`s `getService` throws. */
  datatype SmsError = ServiceDisabled | ServiceNotConfigured

  function ErrorCode(e: SmsError): string {
    match e
    case ServiceDisabled => "error-sms-service-disabled"
    case ServiceNotConfigured => "error-sms-service-not-configured"
  }

  /** The `SMS` object; `null` fields are `None`. `service` is the configured
      provider name, stored lowercased. */
  datatype SmsWorker = SmsWorker(
    enabled: bool,
    department: Option<string>,
    service: Option<string>,
    services: map<string, ProviderClass>,
    accountSid: Option<string>,
    authToken: Option<string>,
    fromNumber: Option<string>)

  /** The object as the module creates it. */
  const Initial: SmsWorker := SmsWorker(false, None, None, map[], None, None, None)

  /** `registerService(name, service)`: stores under `name` exactly as given,
      replacing an earlier entry of that name only. */
  function RegisterService(w: SmsWorker, name: string, provider: ProviderClass): (r: SmsWorker)
    ensures name in r.services && r.services[name] == provider
    ensures r.services.Keys == w.services.Keys + {name}
    ensures forall k :: k in w.services && k != name ==> r.services[k] == w.services[k]
    ensures r == w.(services := r.services)
  {
    w.(services := w.services[name := provider])
  }

  /** `getService(name)`: disabled is reported before an unknown provider,
      and the provider is found under the lowercased name only. */
  function GetService(w: SmsWorker, name: string): (r: Result<SmsService, SmsError>)
    ensures !w.enabled ==> r == Err(ServiceDisabled)
    ensures w.enabled && ToLower(name) !in w.services ==> r == Err(ServiceNotConfigured)
    ensures r.Ok? ==> w.enabled && ToLower(name) in w.services
                      && r.value.provider == w.services[ToLower(name)]
    ensures r.Ok? ==> r.value.accountSid == w.accountSid && r.value.authToken == w.authToken
                      && r.value.fromNumber == w.fromNumber
    ensures w.enabled && ToLower(name) in w.services ==> r.Ok?
  {
    if !w.enabled then Err(ServiceDisabled)
    else if ToLower(name) !in w.services then Err(ServiceNotConfigured)
    else Ok(SmsService(w.services[ToLower(name)], w.accountSid, w.authToken, w.fromNumber))
  }

  /** `isConfiguredService(name)`. */
  function IsConfiguredService(w: SmsWorker, name: string): (r: bool)
    ensures r <==> w.service == Some(ToLower(name))
  {
    w.service == Some(ToLower(name))
  }

  /** The `SMS_Enabled` watcher. */
  function OnSmsEnabled(w: SmsWorker, value: bool): (r: SmsWorker)
    ensures r.enabled == value
    ensures r.(enabled := w.enabled) == w
  {
    w.(enabled := value)
  }

  /** The `SMS_Default_Omnichannel_Department` watcher. */
  function OnDefaultDepartment(w: SmsWorker, value: string): (r: SmsWorker)
    ensures r.department == Some(value)
    ensures r.(department := w.department) == w
  {
    w.(department := Some(value))
  }

  /** The `SMS_Service` watcher stores the name lowercased. */
  function OnSmsService(w: SmsWorker, value: string): (r: SmsWorker)
    ensures r.service == Some(ToLower(value))
    ensures r.service.Some? && !HasUpper(r.service.value)
    ensures r.(service := w.service) == w
  {
    ToLowerNormalizes(value);
    w.(service := Some(ToLower(value)))
  }

  /** Lookup ignores the case of the queried name. */
  lemma GetServiceIgnoresCase(w: SmsWorker, a: string, b: string)
    requires ToLower(a) == ToLower(b)
    ensures GetService(w, a) == GetService(w, b)
  {
  }

  /** An entry registered under a name with an uppercase letter is never what
      `getService` finds: registering it changes no lookup. */
  lemma UppercaseRegistrationInvisible(w: SmsWorker, name: string, provider: ProviderClass, query: string)
    requires HasUpper(name)
    ensures GetService(RegisterService(w, name, provider), query) == GetService(w, query)
  {
    ToLowerNormalizes(query);
    assert ToLower(query) != name;
  }

  /** An entry registered under a lowercase name is found by every spelling
      of that name once SMS is enabled. */
  lemma LowercaseRegistrationFound(w: SmsWorker, name: string, provider: ProviderClass, query: string)
    requires w.enabled && !HasUpper(name) && ToLower(query) == name
    ensures GetService(RegisterService(w, name, provider), query)
            == Ok(SmsService(provider, w.accountSid, w.authToken, w.fromNumber))
  {
  }

  /** After the `SMS_Service` watcher ran, `isConfiguredService` ignores case
      on both sides. */
  lemma ConfiguredServiceIgnoresCase(w: SmsWorker, value: string, query: string)
    ensures IsConfiguredService(OnSmsService(w, value), query) <==> ToLower(query) == ToLower(value)
  {
  }

  /** Each watcher touches one field: the other two answer as before. */
  lemma WatchersAreIndependent(w: SmsWorker, enabled: bool, department: string, service: string, query: string)
    ensures IsConfiguredService(OnSmsEnabled(w, enabled), query) == IsConfiguredService(w, query)
    ensures IsConfiguredService(OnDefaultDepartment(w, department), query) == IsConfiguredService(w, query)
    ensures GetService(OnDefaultDepartment(w, department), query) == GetService(w, query)
    ensures GetService(OnSmsService(w, service), query) == GetService(w, query)
  {
  }

  /** Nothing is available before the `SMS_Enabled` setting arrives. */
  lemma InitiallyDisabled(query: string)
    ensures GetService(Initial, query) == Err(ServiceDisabled)
    ensures ErrorCode(GetService(Initial, query).error) == "error-sms-service-disabled"
  {
  }
}

=== FILE: stream_handler.dfy ===
/** The closure `createAutoTranslateMessageStreamHandler` returns: for each
    message of someone else arriving on the live stream it issues at most one
    flag update, choosing the first of three rules that applies. The update is
    returned as a value instead of being written with `Messages.update`. */
module StreamHandler {
  import opened Values
  import opened Chat
  import opened SubscriptionCache
  import opened LanguageResolver
  import opened MessageDecorator

  /** `hasTranslationLanguageInMessage`; its definition is not part of this
      model, so callers supply it. */
  type MessageLanguageCheck = (Message, string) -> bool

  /** The two message flags the handler writes. */
  datatype Flag = AutoTranslateFetching | AutoTranslateShowInverse

  /** A `Messages.update` modifier: `$set` of flags to `true`, `$unset` of flags. */
  datatype Update = Update(setTrue: set<Flag>, unset: set<Flag>)

  /** Rule 1: ask the server for a translation. */
  const RequestTranslation: Update := Update({AutoTranslateFetching}, {})
  /** Rule 2: the room stopped translating; show the original and stop waiting. */
  const ShowOriginal: Update := Update({AutoTranslateShowInverse}, {AutoTranslateFetching})
  /** Rule 3: a translation arrived; clear the fetching flag. */
  const StopFetching: Update := Update({}, {AutoTranslateFetching})

  /** The condition of rule 1: the room translates, the message has text, and
      no translation into `language` is recorded on it or its attachments. */
  predicate NeedsTranslation(m: Message, sub: Option<Subscription>, language: string,
                             hasInMessage: MessageLanguageCheck, hasInAttachments: AttachmentLanguageCheck) {
    && sub.Some? && sub.value.autoTranslate == Some(true)
    && Truthy(m.msg)
    && (m.translations.None? || (!hasInMessage(m, language) && !hasInAttachments(m.attachments, language)))
  }

  /** The condition of rule 2: the message is awaited and the room does not translate. */
  predicate FinishesWaiting(m: Message, sub: Option<Subscription>, waiting: map<string, string>) {
    m.id in waiting && sub.Some? && sub.value.autoTranslate != Some(true)
  }

  /** The handler's decision for one message: the update to issue, if any, and
      the `messageIdsToWait` map afterwards. */
  function Decide(m: Message, sub: Option<Subscription>, language: string, user: Option<User>,
                  waiting: map<string, string>, hasInMessage: MessageLanguageCheck,
                  hasInAttachments: AttachmentLanguageCheck): (r: (Option<Update>, map<string, string>))
    ensures !IsForeign(m, user) ==> r == (None, waiting)
    ensures IsForeign(m, user) && NeedsTranslation(m, sub, language, hasInMessage, hasInAttachments)
            ==> r == (Some(RequestTranslation), waiting)
    ensures IsForeign(m, user) && !NeedsTranslation(m, sub, language, hasInMessage, hasInAttachments)
            && FinishesWaiting(m, sub, waiting)
            ==> r == (Some(ShowOriginal), waiting - {m.id})
    ensures IsForeign(m, user) && !NeedsTranslation(m, sub, language, hasInMessage, hasInAttachments)
            && !FinishesWaiting(m, sub, waiting) && m.autoTranslateFetching == Some(true)
            ==> r == (Some(StopFetching), waiting)
    ensures r.0 == None <==>
            !IsForeign(m, user)
            || (!NeedsTranslation(m, sub, language, hasInMessage, hasInAttachments)
                && !FinishesWaiting(m, sub, waiting) && m.autoTranslateFetching != Some(true))
    ensures r.1 == waiting || (r.1 == waiting - {m.id} && m.id in waiting)
    ensures r.1 == (if r.0 == Some(ShowOriginal) then waiting - {m.id} else waiting)
    ensures r.0.Some? ==> r.0.value.setTrue !! r.0.value.unset
  {
    if !IsForeign(m, user) then (None, waiting)
    else if NeedsTranslation(m, sub, language, hasInMessage, hasInAttachments) then
      (Some(RequestTranslation), waiting)
    else if FinishesWaiting(m, sub, waiting) then
      (Some(ShowOriginal), waiting - {m.id})
    else if m.autoTranslateFetching == Some(true) then
      (Some(StopFetching), waiting)
    else
      (None, waiting)
  }

  /** The message as the store holds it once `u` is written. */
  function ApplyUpdate(m: Message, u: Update): (r: Message)
    requires u.setTrue !! u.unset
    ensures AutoTranslateFetching in u.setTrue ==> r.autoTranslateFetching == Some(true)
    ensures AutoTranslateFetching in u.unset ==> r.autoTranslateFetching == None
    ensures AutoTranslateFetching !in u.setTrue + u.unset ==> r.autoTranslateFetching == m.autoTranslateFetching
    ensures AutoTranslateShowInverse in u.setTrue ==> r.autoTranslateShowInverse == Some(true)
    ensures AutoTranslateShowInverse in u.unset ==> r.autoTranslateShowInverse == None
    ensures AutoTranslateShowInverse !in u.setTrue + u.unset
            ==> r.autoTranslateShowInverse == m.autoTranslateShowInverse
    ensures r == m.(autoTranslateFetching := r.autoTranslateFetching,
                    autoTranslateShowInverse := r.autoTranslateShowInverse)
  {
    m.(autoTranslateFetching :=
         if AutoTranslateFetching in u.setTrue then Some(true)
         else if AutoTranslateFetching in u.unset then None
         else m.autoTranslateFetching,
       autoTranslateShowInverse :=
         if AutoTranslateShowInverse in u.setTrue then Some(true)
         else if AutoTranslateShowInverse in u.unset then None
         else m.autoTranslateShowInverse)
  }

  /** The handler on one streamed message: for someone else's message it
      looks the subscription up and resolves the language (both through the
      memo), then decides. */
  function HandleStreamed(s: AutoTranslateState, store: seq<Subscription>, user: Option<User>,
                          hasInMessage: MessageLanguageCheck, hasInAttachments: AttachmentLanguageCheck,
                          m: Message): (r: (Option<Update>, AutoTranslateState))
    ensures !IsForeign(m, user) ==> r == (None, s)
    ensures r.1.initialized == s.initialized && r.1.supportedLanguages == s.supportedLanguages
    ensures r.1.messageIdsToWait == s.messageIdsToWait
            || (r.1.messageIdsToWait == s.messageIdsToWait - {m.id} && m.id in s.messageIdsToWait)
    ensures r.1.memo == (if IsForeign(m, user) then FindSubscriptionByRid(s, store, m.rid).1.memo else s.memo)
    ensures IsForeign(m, user) && m.rid != "" ==>
              var sub := FindSubscriptionByRid(s, store, m.rid).0;
              (r.0, r.1.messageIdsToWait)
              == Decide(m, sub, NormalizeTag(PreferredLanguage(sub, user), s.supportedLanguages), user,
                        s.messageIdsToWait, hasInMessage, hasInAttachments)
  {
    if !IsForeign(m, user) then (None, s)
    else
      var (sub, s1) := FindSubscriptionByRid(s, store, m.rid);
      var (language, s2) := GetLanguage(s1, store, m.rid, user);
      var (update, waiting) := Decide(m, sub, language, user, s2.messageIdsToWait, hasInMessage, hasInAttachments);
      (update, s2.(messageIdsToWait := waiting))
  }

  /** Once the "show original" update is written, the same message streamed
      again (same subscription and language) produces no further update. */
  lemma ShowOriginalSettles(m: Message, sub: Option<Subscription>, language: string, user: Option<User>,
                            waiting: map<string, string>, hasInMessage: MessageLanguageCheck,
                            hasInAttachments: AttachmentLanguageCheck)
    requires Decide(m, sub, language, user, waiting, hasInMessage, hasInAttachments).0 == Some(ShowOriginal)
    ensures var w := Decide(m, sub, language, user, waiting, hasInMessage, hasInAttachments).1;
            Decide(ApplyUpdate(m, ShowOriginal), sub, language, user, w, hasInMessage, hasInAttachments)
            == (None, w)
  {
  }

  /** Once the fetching flag is cleared, the same message streamed again
      produces no further update, provided the message check does not depend
      on the fetching flag. */
  lemma StopFetchingSettles(m: Message, sub: Option<Subscription>, language: string, user: Option<User>,
                            waiting: map<string, string>, hasInMessage: MessageLanguageCheck,
                            hasInAttachments: AttachmentLanguageCheck)
    requires Decide(m, sub, language, user, waiting, hasInMessage, hasInAttachments).0 == Some(StopFetching)
    requires hasInMessage(ApplyUpdate(m, StopFetching), language) == hasInMessage(m, language)
    ensures Decide(ApplyUpdate(m, StopFetching), sub, language, user, waiting, hasInMessage, hasInAttachments)
            == (None, waiting)
  {
  }

  /** Requesting a translation wins over an awaited id: the id stays awaited. */
  lemma RequestWinsOverWaiting(m: Message, sub: Option<Subscription>, language: string, user: Option<User>,
                               waiting: map<string, string>, hasInMessage: MessageLanguageCheck,
                               hasInAttachments: AttachmentLanguageCheck)
    requires IsForeign(m, user) && NeedsTranslation(m, sub, language, hasInMessage, hasInAttachments)
    requires m.id in waiting
    ensures Decide(m, sub, language, user, waiting, hasInMessage, hasInAttachments) == (Some(RequestTranslation), waiting)
  {
  }
}

=== FILE: subscription_cache.dfy ===
/** The `AutoTranslate` singleton's state and its memoised subscription lookup
    (`findSubscriptionByRid`), with the rule that clears the memo when a
    subscription's translation settings change, and `init`. */
module SubscriptionCache {
  import opened Values
  import opened Chat

  /** The mutable fields of the `AutoTranslate` object. `memo` is the cache of
      `findSubscriptionByRid`, keyed by room id; it also remembers misses.
      `initialized` is true exactly when the change observer is registered. */
  datatype AutoTranslateState = AutoTranslateState(
    initialized: bool,
    memo: map<string, Option<Subscription>>,
    messageIdsToWait: map<string, string>,
    supportedLanguages: Option<seq<SupportedLanguage>>)

  /** The object as the module creates it. */
  const Initial: AutoTranslateState := AutoTranslateState(false, map[], map[], Some([]))

  /** Position of the first subscription of room `rid` in the local store. */
  function FirstIndex(store: seq<Subscription>, rid: string): (r: Option<nat>)
    ensures r.Some? ==> r.value < |store| && store[r.value].rid == rid
    ensures r.Some? ==> forall j :: 0 <= j < r.value ==> store[j].rid != rid
    ensures r.None? ==> forall j :: 0 <= j < |store| ==> store[j].rid != rid
  {
    if |store| == 0 then None
    else if store[0].rid == rid then Some(0)
    else
      match FirstIndex(store[1..], rid)
      case None => None
      case Some(k) => Some(k + 1)
  }

  /** `Subscriptions.findOne({ rid })`: the first subscription of the room. */
  function FindOne(store: seq<Subscription>, rid: string): (r: Option<Subscription>)
    ensures r.None? <==> forall j :: 0 <= j < |store| ==> store[j].rid != rid
    ensures r.Some? ==> r.value.rid == rid
    ensures r.Some? ==> exists i :: 0 <= i < |store| && store[i] == r.value
                                    && forall j :: 0 <= j < i ==> store[j].rid != rid
  {
    match FirstIndex(store, rid)
    case None => None
    case Some(i) => Some(store[i])
  }

  /** `AutoTranslate.findSubscriptionByRid(rid)`: the memoised lookup. */
  function FindSubscriptionByRid(s: AutoTranslateState, store: seq<Subscription>, rid: string)
    : (r: (Option<Subscription>, AutoTranslateState))
    ensures rid in s.memo ==> r == (s.memo[rid], s)
    ensures rid !in s.memo ==> r.0 == FindOne(store, rid)
    ensures rid in r.1.memo && r.1.memo[rid] == r.0
    ensures r.1.memo.Keys == s.memo.Keys + {rid}
    ensures forall k :: k in s.memo ==> r.1.memo[k] == s.memo[k]
    ensures r.1 == s.(memo := r.1.memo)
  {
    if rid in s.memo then (s.memo[rid], s)
    else
      var found := FindOne(store, rid);
      (found, s.(memo := s.memo[rid := found]))
  }

  /** Two lookups agree on whether a subscription exists and on the two fields
      the translation code reads from it. */
  predicate SameSettings(a: Option<Subscription>, b: Option<Subscription>) {
    && a.Some? == b.Some?
    && (a.Some? ==> a.value.autoTranslate == b.value.autoTranslate
                    && a.value.autoTranslateLanguage == b.value.autoTranslateLanguage)
  }

  /** Every memo entry agrees with the store on the translation settings. */
  ghost predicate Coherent(memo: map<string, Option<Subscription>>, store: seq<Subscription>) {
    forall rid :: rid in memo ==> SameSettings(memo[rid], FindOne(store, rid))
  }

  /** The `fields` argument of an `observeChanges` `changed` callback: a field
      is reported (`Some`) with its new value, `None` inside meaning unset. */
  datatype ChangedFields = ChangedFields(
    autoTranslate: Option<Option<bool>>,
    autoTranslateLanguage: Option<Option<string>>,
    name: Option<string>)

  /** `fields.hasOwnProperty('autoTranslate') || fields.hasOwnProperty('autoTranslateLanguage')`. */
  predicate TouchesTranslation(f: ChangedFields) {
    f.autoTranslate.Some? || f.autoTranslateLanguage.Some?
  }

  /** The subscription document after the reported change. */
  function Patch(sub: Subscription, f: ChangedFields): Subscription {
    sub.(autoTranslate := f.autoTranslate.GetOr(sub.autoTranslate),
         autoTranslateLanguage := f.autoTranslateLanguage.GetOr(sub.autoTranslateLanguage),
         name := f.name.GetOr(sub.name))
  }

  /** The local store after the document `id` changed by `f`. */
  function ApplyChange(store: seq<Subscription>, id: string, f: ChangedFields): (r: seq<Subscription>)
    ensures |r| == |store|
    ensures forall i :: 0 <= i < |store| ==> r[i].rid == store[i].rid
    ensures forall i :: 0 <= i < |store| && store[i].id != id ==> r[i] == store[i]
    ensures !TouchesTranslation(f) ==>
              forall i :: 0 <= i < |store| ==> SameSettings(Some(r[i]), Some(store[i]))
  {
    seq(|store|, i requires 0 <= i < |store| => if store[i].id == id then Patch(store[i], f) else store[i])
  }

  /** The `changed` observer `init` registers: it clears the whole memo when a
      translation setting changed, and is not there before `init` ran. */
  function OnSubscriptionChanged(s: AutoTranslateState, f: ChangedFields): (r: AutoTranslateState)
    ensures s.initialized && TouchesTranslation(f) ==> r.memo == map[]
    ensures !TouchesTranslation(f) ==> r == s
    ensures !s.initialized ==> r == s
    ensures r == s.(memo := r.memo)
  {
    if s.initialized && TouchesTranslation(f) then s.(memo := map[]) else s
  }

  /** `AutoTranslate.init()`: registers the observer once. The provider and
      language fetch it starts is asynchronous and is not modelled here. */
  function Init(s: AutoTranslateState): (r: AutoTranslateState)
    ensures r.initialized
    ensures s.initialized ==> r == s
    ensures r.memo == s.memo && r.messageIdsToWait == s.messageIdsToWait
    ensures r.supportedLanguages == s.supportedLanguages
  {
    if s.initialized then s else s.(initialized := true)
  }

  /** Calling `init` a second time changes nothing. */
  lemma InitIdempotent(s: AutoTranslateState)
    ensures Init(Init(s)) == Init(s)
  {
  }

  /** Which subscription `findOne` picks depends on the rooms in the store only. */
  lemma {:induction false} FirstIndexOnlyRids(store: seq<Subscription>, store': seq<Subscription>, rid: string)
    requires |store'| == |store|
    requires forall i :: 0 <= i < |store| ==> store'[i].rid == store[i].rid
    ensures FirstIndex(store', rid) == FirstIndex(store, rid)
  {
    if |store| > 0 && store[0].rid != rid {
      FirstIndexOnlyRids(store[1..], store'[1..], rid);
    }
  }

  /** A lookup keeps a coherent memo coherent and answers with the store's
      translation settings. */
  lemma LookupKeepsCoherence(s: AutoTranslateState, store: seq<Subscription>, rid: string)
    requires Coherent(s.memo, store)
    ensures Coherent(FindSubscriptionByRid(s, store, rid).1.memo, store)
    ensures SameSettings(FindSubscriptionByRid(s, store, rid).0, FindOne(store, rid))
  {
  }

  /** The change observer keeps the memo coherent with the changed store: a
      change to a watched field clears it, and a change to any other field
      cannot make a cached entry's settings stale. */
  lemma ChangeKeepsCoherence(s: AutoTranslateState, store: seq<Subscription>, id: string, f: ChangedFields)
    requires s.initialized
    requires Coherent(s.memo, store)
    ensures Coherent(OnSubscriptionChanged(s, f).memo, ApplyChange(store, id, f))
  {
    var store' := ApplyChange(store, id, f);
    if !TouchesTranslation(f) {
      forall rid | rid in s.memo
        ensures SameSettings(s.memo[rid], FindOne(store', rid))
      {
        FirstIndexOnlyRids(store, store', rid);
      }
    }
  }

  /** After a change to `autoTranslate` or `autoTranslateLanguage`, the next
      lookup of any room reads the changed store. */
  lemma NoStaleReadAfterTranslationChange(s: AutoTranslateState, store: seq<Subscription>, id: string,
                                          f: ChangedFields, rid: string)
    requires s.initialized && TouchesTranslation(f)
    ensures FindSubscriptionByRid(OnSubscriptionChanged(s, f), ApplyChange(store, id, f), rid).0
            == FindOne(ApplyChange(store, id, f), rid)
  {
  }

  /** Looking a room up twice gives the same answer, whatever the store holds
      in between: the memo is only ever cleared, never refreshed per key. */
  lemma LookupIsStable(s: AutoTranslateState, store: seq<Subscription>, store': seq<Subscription>, rid: string)
    ensures FindSubscriptionByRid(FindSubscriptionByRid(s, store, rid).1, store', rid).0
            == FindSubscriptionByRid(s, store, rid).0
  {
  }
}

=== FILE: values.dfy ===
/** Optional values, results, and the JavaScript truthiness tests that the
    auto-translate, SMS, departments and highlight-words code relies on. */
module Values {

  /** A field that may be `undefined` (or `null`). */
  datatype Option<+T> = None | Some(value: T) {

    /** The value, or a default when the field is absent. */
    function GetOr(default: T): T {
      match this
      case Some(v) => v
      case None => default
    }
  }

  /** A value or the error a call would throw. */
  datatype Result<+T, +E> = Ok(value: T) | Err(error: E)

  /** `!!s` for an optional string: defined and not the empty string. */
  predicate Truthy(s: Option<string>) {
    s.Some? && s.value != ""
  }

  /** `!!b` for an optional boolean. */
  predicate TruthyBool(b: Option<bool>) {
    b == Some(true)
  }

  /** `!!n` for an optional number (NaN is not modelled). */
  predicate TruthyNumber(n: Option<int>) {
    n.Some? && n.value != 0
  }
}
